=== FILE: README.md ===
# Chat relay and client reconciliation, modelled in Dafny

This project models the in-memory bookkeeping of a real-time group chat.

The relay server keeps two stores:

- a user table keyed by connection id;
- a message log capped at 100 entries.

Its socket handlers update these stores and broadcast the result. The browser client keeps its own list of messages and a map of typing flags. It rebuilds them from the relay's broadcasts, and it toggles a reaction locally before the relay answers.

Modules:

- `ChatTypes` (`chat_types.dfy`): connection and message ids, reactions, message payloads and stored messages, user profiles, and outbound events with their audience (everyone, everyone but the sender, the sender only).
- `Reactions` (`reactions.dfy`): the toggle rule that server and client share. It looks up a reaction by its (userId, type) key, removes the first match, or appends a new record.
- `MessageStore` (`message_store.dfy`): the log as values. It covers lookup by id, the capped append with FIFO eviction, the file-size ceiling, and what the `reaction` and `messageRead` handlers do to the log. The `find` and `includes` searches are written as loops.
- `Relay` (`relay.dfy`): the class `Relay`. Its fields are `users: map<ConnId, User>`, `messages: seq<Message>` and `timers: seq<Timer>`, the removal checks scheduled by disconnects. There is one method per socket handler. Each method returns the events it broadcasts. Four scenario methods replay short event sequences on a fresh relay.
- `Client` (`client.dfy`): the client's `sendMessage` guard and payload, `String.prototype.trim`, the `addReaction` toggle, and the listeners for `messageReactionUpdate`, `receiveMessage`, `messageReadUpdate` and `userTyping`. It also holds lemmas relating the client's lists to the relay's log.

Each handler runs to completion before the next event is handled, so each handler is one method. Some inputs come from outside the relay. They are parameters:

- the clock (`now`, `stamp`);
- the message id the relay derives from the clock;
- the random palette index (`pick`).

The one-hour `setTimeout` in `disconnect` becomes a `Timer(conn, now + 3600000)` entry. The environment fires it later with `FireReclaim`, no earlier than the entry's due time.

Four facts about the code shape the model:

- Lookup by message id returns the first message with that id, as `Array.prototype.find` does (Server/server.cjs:115).
- The capped append removes exactly one message (`shift`) after each `push` that takes the log past 100 (Server/server.cjs:97-100).
- `setUsername` may be sent more than once on a connection. Each call overwrites the whole profile (Server/server.cjs:58-65).
- The relay stores the reactions a client sends with a message as they are, without checking that their (userId, type) keys are unique (Server/server.cjs:93). Reaction-key uniqueness therefore holds only while clients send unique keys, as the client in this repository does (it sends `[]`).

## Model

| member | source | states |
|---|---|---|
| `Reactions.IndexOfKey` | Server/server.cjs:124-126 | the result is -1 exactly when no reaction has the (userId, type) key; otherwise it is the first index that has it |
| `Reactions.FindReactionIndex` | Server/server.cjs:124-126 | the relay's `findIndex` loop returns the first index with the key, or -1 |
| `Reactions.Toggle` | Server/server.cjs:128-139 | when the key is absent the result is the list with `Reaction(userId, username, type, timestamp)` appended; when it is present the result is the list without its first reaction with the key; so the length drops or grows by one |
| `Reactions.ToggleKeepsOthers` | Server/server.cjs:128-139 | reactions with any other key are unchanged and stay in order |
| `Reactions.ToggleFlips` | Server/server.cjs:128-139 | on a list with unique keys, the key is present after a toggle exactly when it was absent before |
| `Reactions.ToggleKeepsUnique` | Server/server.cjs:123-139 | a toggle keeps the (userId, type) keys unique |
| `Reactions.ToggleTwiceRestores` | Server/server.cjs:128-139 | two toggles with the same key, starting without it, give back the original list whatever the timestamps |
| `MessageStore.FindMessage` | Server/server.cjs:115 | the result is -1 exactly when no message has the id; otherwise it is the first message with it |
| `MessageStore.FindMessageIndex` | Server/server.cjs:115 | the relay's `messages.find` loop returns the position lookup by id specifies |
| `MessageStore.Includes` | Server/server.cjs:160 | the `readBy.includes` loop answers true exactly when the reader is in the list |
| `MessageStore.FileLimitBoundary` | Server/server.cjs:76-83 | a file is refused exactly when `hasFile` is set and the data is longer than 6990506 characters, so 0.75 of its length exceeds 5*1024*1024; a message without `hasFile` is never refused |
| `MessageStore.Store` | Server/server.cjs:97-100 | the new message is last; below the cap the log grows by one; at the cap exactly the oldest message (index 0) is dropped; from at most 100 the result is the newest 100 |
| `MessageStore.StoreAllKeepsNewest` | Server/server.cjs:97-100 | after any sequence of appends the log holds at most 100 messages, namely the newest arrivals in order |
| `MessageStore.ReactLog` | Server/server.cjs:113-146 | the first message with the id gets the toggle of its old reactions; its id, content and read receipts and every other message are unchanged; an unknown id leaves the log as it was |
| `MessageStore.ReactLogKeepsUnique` | Server/server.cjs:123-139 | reaction keys that are unique on every message stay unique after a reaction |
| `MessageStore.ReactTwiceRestores` | Server/server.cjs:113-146 | two identical reactions on a message without that key leave the whole log as it was |
| `MessageStore.ReadLog` | Server/server.cjs:158-164 | every message but the first with the id is unchanged; on that one the reader is appended exactly once, when not already listed; ids, content and reactions never change; lists without duplicates stay without duplicates; the log changes exactly when the message exists and did not list the reader |
| `MessageStore.SentReactionsAreUnchecked` | Server/server.cjs:88-100 | a payload whose reactions repeat one key is stored as it is, and the log then has a message with repeated reaction keys |
| `MessageStore.StoreKeepsUnique` | Server/server.cjs:89-100 | storing a message with unique reaction keys keeps every message's keys unique |
| `MessageStore.StoreKeepsReceiptsUnique` | Server/server.cjs:92-100 | storing a message keeps every `readBy` free of duplicates |
| `Relay.AvatarColor` | Server/server.cjs:64 | a non-empty requested colour is kept; otherwise the colour is one of the eight palette colours |
| `Relay.Relay.constructor` | Server/server.cjs:43-47 | both stores start empty and no removal is pending |
| `Relay.Relay.OnConnect` | Server/server.cjs:54 | a new connection alone receives the whole current history |
| `Relay.Relay.OnSetUsername` | Server/server.cjs:56-70 | the profile under the connection id is created or overwritten as online and not typing, with lastSeen = now and the chosen colour; nothing else changes; all profiles go to everyone |
| `Relay.Relay.OnMessage` | Server/server.cjs:72-110 | a too-large file leaves both stores unchanged and only the sender gets the error; otherwise the stored message has the given id, the payload's content, `readBy == [sender]` and the sent reactions or `[]`, and it is appended with eviction; the sender's typing flag is cleared and announced before the message is broadcast; reaction-key uniqueness is kept when the sent reactions have unique keys (the relay does not check reactions a client sends) |
| `Relay.Relay.Append` | Server/server.cjs:97-100 | push then shift: the log becomes `Store(old log, m)` and stays within the cap |
| `Relay.Relay.OnReaction` | Server/server.cjs:113-147 | the log becomes `ReactLog` of the old log; the found message's new reactions go to everyone; an unknown id broadcasts nothing; users and timers are untouched |
| `Relay.Relay.OnTyping` | Server/server.cjs:150-155 | without a profile nothing changes and nothing is sent; otherwise only `isTyping` changes and the update goes to everyone but the sender |
| `Relay.Relay.OnMessageRead` | Server/server.cjs:158-164 | the log becomes `ReadLog` of the old log; the new `readBy` goes to everyone exactly when the reader was added |
| `Relay.Relay.OnUserStatus` | Server/server.cjs:167-173 | without a profile nothing changes; otherwise `isOnline == (status == "online")`, lastSeen = now, and all profiles go to everyone |
| `Relay.Relay.OnDisconnect` | Server/server.cjs:175-190 | with a profile, it goes offline with lastSeen = now, all profiles are broadcast, and a removal check is scheduled one hour later; without one, nothing changes and nothing is scheduled |
| `Relay.Relay.FireReclaim` | Server/server.cjs:183-188 | the fired check is consumed; the profile is deleted and all profiles broadcast only if it still exists and is offline; otherwise the users are unchanged and nothing is sent |
| `Relay.ReconnectSurvivesReclaim` | Server/server.cjs:175-188 | after disconnect, `setUsername` again and the stale removal check, the profile is still present and online |
| `Relay.AbandonedProfileIsRemoved` | Server/server.cjs:183-188 | a user who stays offline for the hour is absent from the broadcast the removal sends |
| `Relay.AnonymousTypingIsSilent` | Server/server.cjs:150-155 | typing from a connection without a profile sends nothing and creates no profile |
| `Relay.FirstMessageScenario` | Server/server.cjs:88-109 | a named user's first message reaches everyone with `readBy == [sender]`, no reactions and the generated id, right after the typing reset |
| `Client.Trim` | src/App.jsx:129 | the trimmed text is the contiguous slice of the draft left after the leading white space, every character of the draft outside that slice is white space, and the slice neither starts nor ends with white space |
| `Client.TrimEmptyIffBlank` | src/App.jsx:129 | a draft trims to the empty string exactly when every character is white space |
| `Client.SendMessage` | src/App.jsx:128-158 | a payload is emitted exactly when the trimmed text is non-empty or a file and non-empty file data are both selected; it has `reactions == []`, the trimmed text and the sender's id; `hasFile` and the four file fields are present exactly when a file is attached |
| `Client.ComposedMessageIsStoredAsSent` | src/App.jsx:130-147 | a composed message without a file, or with at most 6990506 characters of data, is accepted by the relay and stored with the same content, `readBy == [sender]` and no reactions |
| `Client.AddReaction` | src/App.jsx:161-201 | the emitted request carries the client's own connection id and the first clock reading; the local reaction carries the second; the list keeps its length; messages with another id are unchanged; messages with the id get the toggled reactions |
| `Client.OnReactionUpdate` | src/App.jsx:223-232 | only messages with the matching id change, and only their reactions; the length is kept |
| `Client.OnReceiveMessage` | src/App.jsx:235-245 | the message is appended at the end, all earlier messages keep their order, and its id is reported as read |
| `Client.OnUserTyping` | src/App.jsx:253-258 | only the given user's flag is set; every other key keeps its value |
| `Client.OnReadUpdate` | src/App.jsx:261-265 | only messages with the matching id change, and only their `readBy`; the length is kept |
| `Client.AddReactionAgreesWithRelay` | src/App.jsx:173-200 | with unique ids, the client's optimistic toggle gives exactly the relay's log for the request it emitted, when the relay stamps the new reaction as the client did; otherwise the lists differ only in that reaction's timestamp until the broadcast arrives |
| `Client.ReactionUpdateConverges` | src/App.jsx:223-232 | with unique ids, after the relay's reaction broadcast the client's list equals the relay's log, whatever timestamps each side used |
| `Client.ReadUpdateConverges` | src/App.jsx:261-265 | with unique ids, applying the relay's read-receipt broadcast gives the client the relay's new log |
| `Client.ReactionKeepsLogAsTail` | src/App.jsx:173-200 | with unique ids, if the relay's log is the tail of the client's list (the state after eviction), it still is after the client's optimistic toggle and the relay's toggle of the same request, when the relay stamps the new reaction as the client did; otherwise the lists differ only in that reaction's timestamp until the broadcast arrives |
| `Client.ReactionUpdateKeepsLogAsTail` | src/App.jsx:223-232 | with unique ids, if the relay's log is the tail of the client's list and still holds the message, it is the tail again once the relay's reaction broadcast is applied, whatever timestamps the request, the local copy and the relay use |
| `Client.ReceiveKeepsLogAsTail` | src/App.jsx:235-236 | the client never evicts; if the relay's log is the tail of the client's list, it still is after a message is stored and received |
| `Client.DuplicateIdsDiverge` | src/App.jsx:174-175 | when two messages share an id, the client toggles both while the relay toggles only the first, so the lists differ |

## Left out

- Transport: socket.io, Express, CORS, the `/` and `/api/health` routes, `server.listen` and logging. Broadcasts are returned as `Outbound` records.
- Order of `Object.values(users)`: the `updateUsers` event carries the whole map. Profile order is not modelled.
- Clocks and randomness: `new Date()`, `Date.now().toString()` and `Math.random()` are parameters. Nothing makes message ids unique. The relay does not guarantee it either; the agreement lemmas assume unique ids, and `DuplicateIdsDiverge` shows what happens without them.
- Events after a disconnect: the model accepts any event from any connection id at any time, including events on an id that has disconnected. socket.io delivers nothing on a disconnected socket, and a reconnecting client gets a new id, so `ReconnectSurvivesReclaim` exercises the removal check rather than a trace a real socket produces.
- Cancelling a pending removal on reconnect: the source does not do it. Only the existence-and-offline check is modelled.
- Payload fields: a payload is modelled as a fixed set of fields. The model does not capture missing `username`, `text` or `userId` values, or extra fields carried along by the object spread. Only `reactions` and the file fields may be absent. Only object payloads are modelled: a `setUsername`, `message` or `reaction` event sent without an object makes the handler throw a TypeError at Server/server.cjs:57, :76 or :114, which nothing in the relay catches.
- Non-array `reactions`: a client-sent `reactions` value that is not an array is not modelled. Every stored message has a reaction list, so the `if (!message.reactions)` branch (Server/server.cjs:119-121) never runs in the model. The client's `msg.reactions?.` on a message without reactions is not modelled either.
- File data length: it is counted in characters; JavaScript counts UTF-16 code units. The two agree for base64 text.
- Client `messageHistory` and `updateUsers` listeners: each replaces its state wholesale. A replaced view is the starting point of the agreement lemmas (`EndsWith` with equal lists).
- Client UI work: the state reset after `sendMessage`, sounds, notifications, the typing debounce timer in `handleTyping`, the port-retry `connectToServer`, visibility listeners, dark mode and all rendering.
- Timestamps formatted as ISO text are opaque strings.

=== FILE: chat_types.dfy ===
/** Values exchanged between the chat relay and its browser clients. */
module ChatTypes {

  /** A socket connection id; it doubles as the user's identity. */
  type ConnId = string
  /** A message id, assigned by the relay from the clock at ingestion. */
  type MsgId = string
  /** Wall-clock time in milliseconds (what `new Date()` stands for). */
  type Time = int

  datatype Option<T> = None | Some(value: T)

  /** One reaction on a message: who reacted, with which kind ("like", "love", ...), and when. */
  datatype Reaction = Reaction(userId: ConnId, username: string, kind: string, timestamp: string)

  /** The fields of a chat message that the relay copies verbatim from the client's payload. */
  datatype Content = Content(
    userId: ConnId,
    username: string,
    text: string,
    timestamp: string,
    read: bool,
    hasFile: bool,
    fileName: Option<string>,
    fileSize: Option<nat>,
    fileType: Option<string>,
    fileData: Option<string>)

  /** An inbound `message` payload: the client's own id field, the content, and optional reactions. */
  datatype Payload = Payload(clientId: string, content: Content, reactions: Option<seq<Reaction>>)

  /** A stored message: relay-assigned id, copied content, read receipts and reactions. */
  datatype Message = Message(id: MsgId, content: Content, readBy: seq<ConnId>, reactions: seq<Reaction>)

  /** A user profile, keyed by connection id in the relay's registry. */
  datatype User = User(username: string, id: ConnId, isOnline: bool, isTyping: bool, lastSeen: Time, avatarColor: string)

  /** Who receives an outbound event, relative to the connection whose event is being handled. */
  datatype Audience = Everyone | AllButSender | SenderOnly

  /** Outbound events, one constructor per event name the relay emits. */
  datatype Event =
    | MessageHistory(log: seq<Message>)
    | ReceiveMessage(msg: Message)
    | UpdateUsers(users: map<ConnId, User>)
    | UserTyping(userId: ConnId, isTyping: bool)
    | MessageReactionUpdate(messageId: MsgId, reactions: seq<Reaction>)
    | MessageReadUpdate(messageId: MsgId, readBy: seq<ConnId>)
    | ErrorEvent(text: string)

  datatype Outbound = Outbound(to: Audience, event: Event)

  /** No connection id occurs twice. */
  predicate NoDuplicates(s: seq<ConnId>)
  {
    forall i, j :: 0 <= i < j < |s| ==> s[i] != s[j]
  }

  /** No message id occurs twice in a list of messages. */
  predicate UniqueIds(log: seq<Message>)
  {
    forall i, j :: 0 <= i < j < |log| ==> log[i].id != log[j].id
  }
}

=== FILE: client.dfy ===
/**
 * The browser client's view of the chat: how it composes an outgoing message,
 * how it toggles a reaction locally before the relay answers, and how it
 * folds the relay's broadcasts into its list of messages and its map of
 * typing flags. Each listener replaces the list with a new one built by
 * mapping or appending; none edits the old list.
 */
module Client {
  import opened ChatTypes
  import opened Reactions
  import opened MessageStore

  // ---------------------------------------------------------------------------
  // Composing a message

  /** The characters `String.prototype.trim` removes: white space and line terminators. */
  predicate IsSpace(ch: char)
  {
    || ch == '\t' || ch == '\n' || ch == '\U{000B}' || ch == '\U{000C}' || ch == '\r' || ch == ' '
    || ch == '\U{00A0}' || ch == '\U{1680}' || ('\U{2000}' <= ch <= '\U{200A}')
    || ch == '\U{2028}' || ch == '\U{2029}' || ch == '\U{202F}' || ch == '\U{205F}'
    || ch == '\U{3000}' || ch == '\U{FEFF}'
  }

  function TrimStart(s: string): (r: string)
    ensures |r| <= |s| && r == s[|s| - |r|..]
    ensures r != [] ==> !IsSpace(r[0])
    ensures forall i :: 0 <= i < |s| - |r| ==> IsSpace(s[i])
  {
    if s != [] && IsSpace(s[0]) then
      var r := TrimStart(s[1..]);
      assert forall i :: 1 <= i < |s| ==> s[i] == s[1..][i - 1];
      r
    else s
  }

  function TrimEnd(s: string): (r: string)
    ensures |r| <= |s| && r == s[..|r|]
    ensures r != [] ==> !IsSpace(r[|r| - 1])
    ensures forall i :: |r| <= i < |s| ==> IsSpace(s[i])
  {
    if s != [] && IsSpace(s[|s| - 1]) then TrimEnd(s[..|s| - 1]) else s
  }

  /** `String.prototype.trim`: drop white space at both ends. */
  function Trim(s: string): (r: string)
    ensures |r| <= |s|
    ensures r != [] ==> !IsSpace(r[0]) && !IsSpace(r[|r| - 1])
    ensures var a := |s| - |TrimStart(s)|;
      && a + |r| <= |s| && r == s[a..a + |r|]
      && (forall i :: 0 <= i < a ==> IsSpace(s[i]))
      && (forall i :: a + |r| <= i < |s| ==> IsSpace(s[i]))
  {
    TrimEnd(TrimStart(s))
  }

  /** A draft trims to nothing exactly when every character in it is white space. */
  lemma TrimEmptyIffBlank(s: string)
    ensures Trim(s) == [] <==> forall i :: 0 <= i < |s| ==> IsSpace(s[i])
  {
  }

  /** A file picked in the browser: its name, size in bytes and MIME type. */
  datatype SelectedFile = SelectedFile(name: string, size: nat, mime: string)

  /** JavaScript truthiness of an optional string: present and not empty. */
  predicate Truthy(s: Option<string>)
  {
    s.Some? && s.value != ""
  }

  /**
   * `sendMessage`: the payload the client emits for the current draft and
   * attachment, or None when it emits nothing.
   */
  function SendMessage(socketId: ConnId, username: string, draft: string,
                          file: Option<SelectedFile>, fileData: Option<string>, stamp: string): (p: Option<Payload>)
    ensures p.Some? <==> Trim(draft) != [] || (file.Some? && Truthy(fileData))
    ensures p.Some? ==>
      && p.value.clientId == socketId
      && p.value.reactions == Some([])
      && p.value.content.userId == socketId
      && p.value.content.username == username
      && p.value.content.text == Trim(draft)
      && p.value.content.timestamp == stamp
      && !p.value.content.read
    ensures p.Some? ==>
      (p.value.content.hasFile <==> file.Some? && Truthy(fileData))
    ensures p.Some? && !(file.Some? && Truthy(fileData)) ==>
      p.value.content.fileName.None? && p.value.content.fileSize.None?
      && p.value.content.fileType.None? && p.value.content.fileData.None?
    ensures p.Some? && file.Some? && Truthy(fileData) ==>
      && p.value.content.fileName == Some(file.value.name)
      && p.value.content.fileSize == Some(file.value.size)
      && p.value.content.fileType == Some(file.value.mime)
      && p.value.content.fileData == fileData
  {
    var text := Trim(draft);
    var attached := file.Some? && Truthy(fileData);
    if text == [] && !attached then None
    else
      var plain := Content(socketId, username, text, stamp, false, false, None, None, None, None);
      var content :=
        if attached then plain.(hasFile := true, fileName := Some(file.value.name), fileSize := Some(file.value.size),
                                fileType := Some(file.value.mime), fileData := fileData)
        else plain;
      Some(Payload(socketId, content, Some([])))
  }

  /**
   * A message the client composes, with no file or with file data within the
   * ceiling, is accepted and stored by the relay as sent: same content, read by
   * the sender alone, with no reactions.
   */
  lemma ComposedMessageIsStoredAsSent(socketId: ConnId, username: string, draft: string,
                                      file: Option<SelectedFile>, fileData: Option<string>, stamp: string, id: MsgId)
    requires SendMessage(socketId, username, draft, file, fileData, stamp).Some?
    requires fileData.Some? ==> |fileData.value| <= MAX_FILE_DATA_LENGTH
    ensures var p := SendMessage(socketId, username, draft, file, fileData, stamp).value;
      && !FileTooLarge(p.content)
      && Enhance(p, id, socketId) == Message(id, p.content, [socketId], [])
  {
  }

  // ---------------------------------------------------------------------------
  // Folding broadcasts into the view

  /** `list.map(msg => msg.id === id ? f(msg) : msg)`. */
  function MapWhere(view: seq<Message>, id: MsgId, f: Message -> Message): (r: seq<Message>)
    ensures |r| == |view|
    ensures forall j :: 0 <= j < |view| ==> r[j] == if view[j].id == id then f(view[j]) else view[j]
  {
    if view == [] then []
    else
      var rest := MapWhere(view[1..], id, f);
      assert forall j :: 1 <= j < |view| ==> view[j] == view[1..][j - 1];
      [if view[0].id == id then f(view[0]) else view[0]] + rest
  }

  /** `messageReactionUpdate`: every message with the id takes the broadcast reactions. */
  function OnReactionUpdate(view: seq<Message>, id: MsgId, reactions: seq<Reaction>): (r: seq<Message>)
    ensures |r| == |view|
    ensures forall j :: 0 <= j < |view| && view[j].id == id ==> r[j] == view[j].(reactions := reactions)
    ensures forall j :: 0 <= j < |view| && view[j].id != id ==> r[j] == view[j]
  {
    MapWhere(view, id, (m: Message) => m.(reactions := reactions))
  }

  /** `messageReadUpdate`: every message with the id takes the broadcast read receipts. */
  function OnReadUpdate(view: seq<Message>, id: MsgId, readBy: seq<ConnId>): (r: seq<Message>)
    ensures |r| == |view|
    ensures forall j :: 0 <= j < |view| && view[j].id == id ==> r[j] == view[j].(readBy := readBy)
    ensures forall j :: 0 <= j < |view| && view[j].id != id ==> r[j] == view[j]
  {
    MapWhere(view, id, (m: Message) => m.(readBy := readBy))
  }

  /** What `receiveMessage` leaves behind: the new view and the id it reports as read. */
  datatype Received = Received(view: seq<Message>, readReceipt: MsgId)

  /** `receiveMessage`: append the message at the end and report it as read. */
  function OnReceiveMessage(view: seq<Message>, m: Message): (r: Received)
    ensures |r.view| == |view| + 1 && r.view[..|view|] == view && r.view[|view|] == m
    ensures r.readReceipt == m.id
  {
    Received(view + [m], m.id)
  }

  /** `userTyping`: set one user's flag and keep every other entry. */
  function OnUserTyping(typing: map<ConnId, bool>, userId: ConnId, isTyping: bool): (r: map<ConnId, bool>)
    ensures r.Keys == typing.Keys + {userId}
    ensures r[userId] == isTyping
    ensures forall u :: u in typing && u != userId ==> r[u] == typing[u]
  {
    typing[userId := isTyping]
  }

  /** The `reaction` event the client emits from `addReaction`. */
  datatype ReactionRequest = ReactionRequest(messageId: MsgId, userId: ConnId, username: string, kind: string, timestamp: string)

  /** What `addReaction` leaves behind: the event it emitted and its optimistic view. */
  datatype Reacted = Reacted(request: ReactionRequest, view: seq<Message>)

  /**
   * `addReaction`: emit the reaction under the client's own connection id and,
   * without waiting for the relay, apply the toggle to every message with the id.
   * The clock is read twice: `sentStamp` goes into the emitted request and
   * `stamp` onto the reaction appended locally.
   */
  function AddReaction(view: seq<Message>, messageId: MsgId, socketId: ConnId, username: string, kind: string,
                       sentStamp: string, stamp: string): (r: Reacted)
    ensures r.request == ReactionRequest(messageId, socketId, username, kind, sentStamp)
    ensures |r.view| == |view|
    ensures forall j :: 0 <= j < |view| && view[j].id != messageId ==> r.view[j] == view[j]
    ensures forall j :: 0 <= j < |view| && view[j].id == messageId ==>
      r.view[j] == view[j].(reactions := Toggle(view[j].reactions, socketId, username, kind, stamp))
  {
    Reacted(ReactionRequest(messageId, socketId, username, kind, sentStamp),
            MapWhere(view, messageId, (m: Message) => m.(reactions := Toggle(m.reactions, socketId, username, kind, stamp))))
  }

  // ---------------------------------------------------------------------------
  // Agreement with the relay

  /**
   * When ids are unique and the client's list equals the relay's log, the
   * client's optimistic toggle produces exactly the log the relay produces for
   * the request the client emitted, when the relay stamps the reaction as the
   * client stamped its local copy.
   */
  lemma AddReactionAgreesWithRelay(view: seq<Message>, messageId: MsgId, socketId: ConnId, username: string, kind: string,
                                   sentStamp: string, stamp: string)
    requires UniqueIds(view)
    ensures var r := AddReaction(view, messageId, socketId, username, kind, sentStamp, stamp);
      r.view == ReactLog(view, r.request.messageId, r.request.userId, r.request.username, r.request.kind, stamp)
  {
  }

  /**
   * Whatever timestamps the client and the relay put on the reaction, once
   * the relay's `messageReactionUpdate` arrives the client's list equals the
   * relay's log again.
   */
  lemma ReactionUpdateConverges(view: seq<Message>, messageId: MsgId, socketId: ConnId, username: string, kind: string,
                                sentStamp: string, clientStamp: string, relayStamp: string)
    requires UniqueIds(view) && 0 <= FindMessage(view, messageId)
    ensures var log := ReactLog(view, messageId, socketId, username, kind, relayStamp);
      OnReactionUpdate(AddReaction(view, messageId, socketId, username, kind, sentStamp, clientStamp).view,
                          messageId, log[FindMessage(view, messageId)].reactions) == log
  {
  }

  /**
   * When ids are unique and the relay broadcast a read receipt for the log the
   * client holds, applying it gives the client the relay's new log.
   */
  lemma ReadUpdateConverges(view: seq<Message>, messageId: MsgId, reader: ConnId)
    requires UniqueIds(view) && 0 <= FindMessage(view, messageId)
    ensures var log := ReadLog(view, messageId, reader);
      OnReadUpdate(view, messageId, log[FindMessage(view, messageId)].readBy) == log
  {
  }

  /** The relay's log is the tail of the client's list. */
  predicate EndsWith(view: seq<Message>, log: seq<Message>)
  {
    |log| <= |view| && view[|view| - |log|..] == log
  }

  /**
   * The client never evicts: if the relay's log is the tail of the client's
   * list, it still is after the relay stores a message and the client receives it.
   */
  lemma ReceiveKeepsLogAsTail(view: seq<Message>, log: seq<Message>, m: Message)
    requires EndsWith(view, log) && |log| <= MAX_MESSAGES
    ensures EndsWith(OnReceiveMessage(view, m).view, Store(log, m))
  {
  }

  /**
   * Once the relay has evicted old messages its log is only the tail of the
   * client's list. With unique ids, the client's optimistic toggle still
   * agrees with the relay's toggle on that tail, when the relay stamps the
   * reaction as the client stamped its local copy; otherwise the two differ in
   * that reaction's timestamp until the broadcast arrives.
   */
  lemma ReactionKeepsLogAsTail(view: seq<Message>, log: seq<Message>, messageId: MsgId, socketId: ConnId,
                               username: string, kind: string, sentStamp: string, stamp: string)
    requires UniqueIds(view) && EndsWith(view, log)
    ensures EndsWith(AddReaction(view, messageId, socketId, username, kind, sentStamp, stamp).view,
                     ReactLog(log, messageId, socketId, username, kind, stamp))
  {
    var r := AddReaction(view, messageId, socketId, username, kind, sentStamp, stamp).view;
    var after := ReactLog(log, messageId, socketId, username, kind, stamp);
    var d := |view| - |log|;
    var k := FindMessage(log, messageId);
    forall j | 0 <= j < |log| ensures r[d + j] == after[j] {
      assert view[d + j] == log[j];
    }
    assert r[d..] == after;
  }

  /**
   * Whatever timestamps the client and the relay use, once the relay's
   * `messageReactionUpdate` for a message it still holds arrives, its log is
   * again the tail of the client's list.
   */
  lemma ReactionUpdateKeepsLogAsTail(view: seq<Message>, log: seq<Message>, messageId: MsgId, socketId: ConnId,
                                     username: string, kind: string, sentStamp: string, clientStamp: string, relayStamp: string)
    requires UniqueIds(view) && EndsWith(view, log) && 0 <= FindMessage(log, messageId)
    ensures var after := ReactLog(log, messageId, socketId, username, kind, relayStamp);
      EndsWith(OnReactionUpdate(AddReaction(view, messageId, socketId, username, kind, sentStamp, clientStamp).view,
                                messageId, after[FindMessage(log, messageId)].reactions),
               after)
  {
    var after := ReactLog(log, messageId, socketId, username, kind, relayStamp);
    var k := FindMessage(log, messageId);
    var r := OnReactionUpdate(AddReaction(view, messageId, socketId, username, kind, sentStamp, clientStamp).view,
                              messageId, after[k].reactions);
    var d := |view| - |log|;
    forall j | 0 <= j < |log| ensures r[d + j] == after[j] {
      assert view[d + j] == log[j];
    }
    assert r[d..] == after;
  }

  /**
   * When two messages share an id (ids come from a millisecond clock), the
   * client toggles the reaction on both while the relay toggles it only on the
   * first, and the two lists part.
   */
  lemma DuplicateIdsDiverge(c: Content, me: ConnId, stamp: string)
    ensures var view := [Message("1", c, [], []), Message("1", c, [], [])];
      AddReaction(view, "1", me, "", "like", stamp, stamp).view != ReactLog(view, "1", me, "", "like", stamp)
  {
  }
}

=== FILE: message_store.dfy ===
/**
 * The relay's message log as values: lookup by id, the capped append, and
 * the per-message reaction and read-receipt updates. The `Relay` class
 * performs these updates in place; the functions here say what they produce.
 */
module MessageStore {
  import opened ChatTypes
  import opened Reactions

  /** At most this many messages are kept. */
  const MAX_MESSAGES: nat := 100
  /** The ceiling on an attached file's decoded size, in bytes (5 MB). */
  const MAX_FILE_SIZE: nat := 5 * 1024 * 1024
  /** The text of the error event sent to a sender whose file is too large. */
  const FILE_TOO_LARGE: string := "File size exceeds the 5MB limit"
  /** The longest base64 text whose decoded size is still within the ceiling. */
  const MAX_FILE_DATA_LENGTH: nat := 6990506

  /** `messages.find(msg => msg.id === id)` as a position: the first message with the id, or -1. */
  function FindMessage(log: seq<Message>, id: MsgId): (k: int)
    ensures -1 <= k < |log|
    ensures 0 <= k ==> log[k].id == id
    ensures forall j :: 0 <= j < |log| && (k < 0 || j < k) ==> log[j].id != id
  {
    if |log| == 0 then -1
    else if log[0].id == id then 0
    else
      var k := FindMessage(log[1..], id);
      assert forall j :: 1 <= j < |log| ==> log[j] == log[1..][j - 1];
      if k < 0 then -1 else k + 1
  }

  /** The decoded size the relay attributes to file data: three quarters of its length, or 0 when it is missing or empty. */
  function DecodedSize(fileData: Option<string>): real
  {
    if fileData.Some? && fileData.value != "" then (|fileData.value| as real) * 0.75 else 0.0
  }

  /** A message that declares a file whose decoded size exceeds the ceiling. */
  predicate FileTooLarge(c: Content)
  {
    c.hasFile && DecodedSize(c.fileData) > MAX_FILE_SIZE as real
  }

  /** In whole characters: a file is refused exactly when its data is longer than 6990506 characters. */
  lemma FileLimitBoundary(c: Content)
    ensures FileTooLarge(c) <==> c.hasFile && c.fileData.Some? && |c.fileData.value| > MAX_FILE_DATA_LENGTH
  {
  }

  /** The message the relay stores for payload `p` from `sender`, under the id `id`. */
  function Enhance(p: Payload, id: MsgId, sender: ConnId): Message
  {
    Message(id, p.content, [sender], if p.reactions.Some? then p.reactions.value else [])
  }

  /** The last `n` elements of `s` (all of them when there are fewer). */
  function Newest(s: seq<Message>, n: nat): (r: seq<Message>)
    ensures |r| <= n
  {
    if |s| <= n then s else s[|s| - n..]
  }

  /** `messages.push(m)`, then `messages.shift()` when the log has grown past the cap. */
  function Store(log: seq<Message>, m: Message): (r: seq<Message>)
    ensures |r| == if |log| < MAX_MESSAGES then |log| + 1 else |log|
    ensures r[|r| - 1] == m
    ensures r[..|r| - 1] == if |log| < MAX_MESSAGES then log else log[1..]
    ensures |log| <= MAX_MESSAGES ==> r == Newest(log + [m], MAX_MESSAGES)
  {
    var grown := log + [m];
    if |grown| > MAX_MESSAGES then grown[1..] else grown
  }

  /** The log after storing each of `ms` in turn. */
  function StoreAll(log: seq<Message>, ms: seq<Message>): seq<Message>
    decreases |ms|
  {
    if ms == [] then log else StoreAll(Store(log, ms[0]), ms[1..])
  }

  lemma NewestOfNewest(s: seq<Message>, t: seq<Message>, n: nat)
    ensures Newest(Newest(s, n) + t, n) == Newest(s + t, n)
  {
  }

  /**
   * Whatever messages arrive, the log never holds more than the cap, and it
   * holds exactly the newest arrivals: the oldest are the ones evicted.
   */
  lemma {:induction false} StoreAllKeepsNewest(log: seq<Message>, ms: seq<Message>)
    requires |log| <= MAX_MESSAGES
    ensures StoreAll(log, ms) == Newest(log + ms, MAX_MESSAGES)
    ensures |StoreAll(log, ms)| <= MAX_MESSAGES
    decreases |ms|
  {
    if ms == [] {
      assert log + ms == log;
    } else {
      var grown := log + [ms[0]];
      var next := Store(log, ms[0]);
      assert next == Newest(grown, MAX_MESSAGES);
      StoreAllKeepsNewest(next, ms[1..]);
      NewestOfNewest(grown, ms[1..], MAX_MESSAGES);
      assert grown + ms[1..] == log + ms;
    }
  }

  /** The `reaction` handler's effect on the log: toggle on the first message with the id, if any. */
  function ReactLog(log: seq<Message>, id: MsgId, userId: ConnId, username: string, kind: string, stamp: string): (r: seq<Message>)
    ensures |r| == |log|
    ensures forall j :: 0 <= j < |log| ==>
      r[j].id == log[j].id && r[j].content == log[j].content && r[j].readBy == log[j].readBy
    ensures forall j :: 0 <= j < |log| && j != FindMessage(log, id) ==> r[j] == log[j]
    ensures 0 <= FindMessage(log, id) ==>
      r[FindMessage(log, id)].reactions == Toggle(log[FindMessage(log, id)].reactions, userId, username, kind, stamp)
  {
    var k := FindMessage(log, id);
    if k < 0 then log
    else log[k := log[k].(reactions := Toggle(log[k].reactions, userId, username, kind, stamp))]
  }

  /** The `messageRead` handler's effect on the log: add the reader to the first message with the id, once. */
  function ReadLog(log: seq<Message>, id: MsgId, reader: ConnId): (r: seq<Message>)
    ensures |r| == |log|
    ensures forall j :: 0 <= j < |log| ==>
      r[j].id == log[j].id && r[j].content == log[j].content && r[j].reactions == log[j].reactions
    ensures forall j :: 0 <= j < |log| ==> log[j].readBy <= r[j].readBy
    ensures forall j :: 0 <= j < |log| && NoDuplicates(log[j].readBy) ==> NoDuplicates(r[j].readBy)
    ensures 0 <= FindMessage(log, id) ==> reader in r[FindMessage(log, id)].readBy
    ensures forall j :: 0 <= j < |log| && j != FindMessage(log, id) ==> r[j] == log[j]
    ensures 0 <= FindMessage(log, id) && reader !in log[FindMessage(log, id)].readBy ==>
      r[FindMessage(log, id)].readBy == log[FindMessage(log, id)].readBy + [reader]
    ensures r != log <==> 0 <= FindMessage(log, id) && reader !in log[FindMessage(log, id)].readBy
  {
    var k := FindMessage(log, id);
    if k < 0 || reader in log[k].readBy then log
    else
      var r := log[k := log[k].(readBy := log[k].readBy + [reader])];
      assert |r[k].readBy| != |log[k].readBy|;
      r
  }

  /** Every message in the log has reactions with unique (userId, type) keys. */
  predicate AllReactionsUnique(log: seq<Message>)
  {
    forall j :: 0 <= j < |log| ==> KeysUnique(log[j].reactions)
  }

  lemma ReactLogKeepsUnique(log: seq<Message>, id: MsgId, userId: ConnId, username: string, kind: string, stamp: string)
    requires AllReactionsUnique(log)
    ensures AllReactionsUnique(ReactLog(log, id, userId, username, kind, stamp))
  {
  }

  lemma StoreKeepsUnique(log: seq<Message>, m: Message)
    requires AllReactionsUnique(log) && KeysUnique(m.reactions)
    ensures AllReactionsUnique(Store(log, m))
  {
  }

  /**
   * The relay copies the reactions a client sends without checking them, so a
   * payload carrying the same key twice puts a message with repeated keys in the log.
   */
  lemma SentReactionsAreUnchecked(clientId: ConnId, c: Content, x: Reaction, id: MsgId, sender: ConnId)
    ensures !AllReactionsUnique(Store([], Enhance(Payload(clientId, c, Some([x, x])), id, sender)))
  {
    var log := Store([], Enhance(Payload(clientId, c, Some([x, x])), id, sender));
    var rs := log[0].reactions;
    assert rs == [x, x];
    assert SameKey(rs[1], rs[0].userId, rs[0].kind);
    assert !KeysUnique(rs);
  }

  /** Every message in the log has read receipts without duplicates. */
  predicate AllReceiptsUnique(log: seq<Message>)
  {
    forall j :: 0 <= j < |log| ==> NoDuplicates(log[j].readBy)
  }

  lemma StoreKeepsReceiptsUnique(log: seq<Message>, m: Message)
    requires AllReceiptsUnique(log) && NoDuplicates(m.readBy)
    ensures AllReceiptsUnique(Store(log, m))
  {
  }

  /**
   * Two identical reactions on a message that lacked that key leave the log
   * as it was: the first adds the reaction, the second removes it.
   */
  lemma ReactTwiceRestores(log: seq<Message>, id: MsgId, userId: ConnId, username: string, kind: string, stamp: string, stamp': string)
    requires 0 <= FindMessage(log, id) ==> !HasKey(log[FindMessage(log, id)].reactions, userId, kind)
    ensures ReactLog(ReactLog(log, id, userId, username, kind, stamp), id, userId, username, kind, stamp') == log
  {
    var once := ReactLog(log, id, userId, username, kind, stamp);
    var k := FindMessage(log, id);
    SameIdsSameFind(log, once, id);
    if k >= 0 {
      ToggleTwiceRestores(log[k].reactions, userId, username, kind, stamp, stamp');
      var twice := ReactLog(once, id, userId, username, kind, stamp');
      assert twice[k] == log[k];
      assert twice == log;
    }
  }

  /** Lookup by id depends only on the ids in the log. */
  lemma SameIdsSameFind(a: seq<Message>, b: seq<Message>, id: MsgId)
    requires |a| == |b|
    requires forall j :: 0 <= j < |a| ==> a[j].id == b[j].id
    ensures FindMessage(a, id) == FindMessage(b, id)
  {
  }

  /** The relay's `messages.find`, written as the search loop it performs. */
  method FindMessageIndex(log: seq<Message>, id: MsgId) returns (k: int)
    ensures k == FindMessage(log, id)
  {
    k := 0;
    while k < |log| && log[k].id != id
      invariant 0 <= k <= |log|
      invariant forall j :: 0 <= j < k ==> log[j].id != id
    {
      k := k + 1;
    }
    if k == |log| {
      k := -1;
    }
  }

  /** The relay's `readBy.includes(reader)`, written as the search loop it performs. */
  method Includes(readBy: seq<ConnId>, reader: ConnId) returns (found: bool)
    ensures found <==> reader in readBy
  {
    var i := 0;
    while i < |readBy|
      invariant 0 <= i <= |readBy|
      invariant forall j :: 0 <= j < i ==> readBy[j] != reader
    {
      if readBy[i] == reader {
        return true;
      }
      i := i + 1;
    }
    found := false;
  }
}

=== FILE: reactions.dfy ===
/**
 * The reaction toggle shared by the relay's `reaction` handler and the
 * client's optimistic `addReaction`: look for a reaction with the same
 * (userId, type) key; remove the first one found, or append a new record.
 */
module Reactions {
  import opened ChatTypes

  predicate SameKey(r: Reaction, userId: ConnId, kind: string)
  {
    r.userId == userId && r.kind == kind
  }

  predicate HasKey(rs: seq<Reaction>, userId: ConnId, kind: string)
  {
    exists j :: 0 <= j < |rs| && SameKey(rs[j], userId, kind)
  }

  /** No two reactions share a (userId, type) key. */
  predicate KeysUnique(rs: seq<Reaction>)
  {
    forall i, j :: 0 <= i < j < |rs| ==> !SameKey(rs[j], rs[i].userId, rs[i].kind)
  }

  /** `findIndex` on the (userId, type) key: the first matching position, or -1 when there is none. */
  function IndexOfKey(rs: seq<Reaction>, userId: ConnId, kind: string): (i: int)
    ensures -1 <= i < |rs|
    ensures 0 <= i ==> SameKey(rs[i], userId, kind)
    ensures forall j :: 0 <= j < |rs| && (i < 0 || j < i) ==> !SameKey(rs[j], userId, kind)
  {
    if |rs| == 0 then -1
    else if SameKey(rs[0], userId, kind) then 0
    else
      var i := IndexOfKey(rs[1..], userId, kind);
      assert forall j :: 1 <= j < |rs| ==> rs[j] == rs[1..][j - 1];
      if i < 0 then -1 else i + 1
  }

  /** The toggle rule: remove the first reaction with the key, or append a fresh one stamped `stamp`. */
  function Toggle(rs: seq<Reaction>, userId: ConnId, username: string, kind: string, stamp: string): (r: seq<Reaction>)
    ensures |r| == if HasKey(rs, userId, kind) then |rs| - 1 else |rs| + 1
    ensures !HasKey(rs, userId, kind) ==> r == rs + [Reaction(userId, username, kind, stamp)]
    ensures HasKey(rs, userId, kind) ==>
      var i := IndexOfKey(rs, userId, kind);
      0 <= i && r == rs[..i] + rs[i + 1..]
  {
    var i := IndexOfKey(rs, userId, kind);
    assert HasKey(rs, userId, kind) <==> i >= 0 by {
      if i >= 0 {
        assert SameKey(rs[i], userId, kind);
      }
    }
    if i >= 0 then rs[..i] + rs[i + 1..] else rs + [Reaction(userId, username, kind, stamp)]
  }

  /** The reactions whose key differs from (userId, kind), in order. */
  function Others(rs: seq<Reaction>, userId: ConnId, kind: string): seq<Reaction>
  {
    if rs == [] then []
    else (if SameKey(rs[0], userId, kind) then [] else [rs[0]]) + Others(rs[1..], userId, kind)
  }

  lemma {:induction false} OthersConcat(a: seq<Reaction>, b: seq<Reaction>, userId: ConnId, kind: string)
    ensures Others(a + b, userId, kind) == Others(a, userId, kind) + Others(b, userId, kind)
  {
    if a == [] {
      assert a + b == b;
    } else {
      assert (a + b)[1..] == a[1..] + b;
      OthersConcat(a[1..], b, userId, kind);
    }
  }

  lemma OthersDrop(rs: seq<Reaction>, i: nat, userId: ConnId, kind: string)
    requires i < |rs| && SameKey(rs[i], userId, kind)
    ensures Others(rs[..i] + rs[i + 1..], userId, kind) == Others(rs, userId, kind)
  {
    var pre, post := rs[..i], rs[i + 1..];
    assert rs == pre + ([rs[i]] + post);
    assert Others([rs[i]], userId, kind) == [] by {
      assert [rs[i]][1..] == [];
    }
    OthersConcat([rs[i]], post, userId, kind);
    OthersConcat(pre, [rs[i]] + post, userId, kind);
    OthersConcat(pre, post, userId, kind);
  }

  lemma OthersAppend(rs: seq<Reaction>, x: Reaction, userId: ConnId, kind: string)
    requires SameKey(x, userId, kind)
    ensures Others(rs + [x], userId, kind) == Others(rs, userId, kind)
  {
    assert Others([x], userId, kind) == [] by {
      assert [x][1..] == [];
    }
    OthersConcat(rs, [x], userId, kind);
  }

  /** Toggling one key leaves every reaction with another key in place and in order. */
  lemma ToggleKeepsOthers(rs: seq<Reaction>, userId: ConnId, username: string, kind: string, stamp: string)
    ensures Others(Toggle(rs, userId, username, kind, stamp), userId, kind) == Others(rs, userId, kind)
  {
    var i := IndexOfKey(rs, userId, kind);
    if i >= 0 {
      OthersDrop(rs, i, userId, kind);
    } else {
      OthersAppend(rs, Reaction(userId, username, kind, stamp), userId, kind);
    }
  }

  /** On a list with unique keys, a toggle turns the key on when it was off and off when it was on. */
  lemma ToggleFlips(rs: seq<Reaction>, userId: ConnId, username: string, kind: string, stamp: string)
    requires KeysUnique(rs)
    ensures HasKey(Toggle(rs, userId, username, kind, stamp), userId, kind) <==> !HasKey(rs, userId, kind)
  {
    var r := Toggle(rs, userId, username, kind, stamp);
    var i := IndexOfKey(rs, userId, kind);
    if i >= 0 {
      forall j | 0 <= j < |r| ensures !SameKey(r[j], userId, kind) {
        if j < i {
          assert r[j] == rs[j];
        } else {
          assert r[j] == rs[j + 1];
          assert !SameKey(rs[j + 1], rs[i].userId, rs[i].kind);
        }
      }
    } else {
      assert SameKey(r[|rs|], userId, kind);
    }
  }

  lemma DropKeepsUnique(rs: seq<Reaction>, i: nat)
    requires KeysUnique(rs) && i < |rs|
    ensures KeysUnique(rs[..i] + rs[i + 1..])
  {
  }

  lemma AppendKeepsUnique(rs: seq<Reaction>, x: Reaction)
    requires KeysUnique(rs) && !HasKey(rs, x.userId, x.kind)
    ensures KeysUnique(rs + [x])
  {
  }

  /** A toggle keeps the (userId, type) keys of a list unique. */
  lemma ToggleKeepsUnique(rs: seq<Reaction>, userId: ConnId, username: string, kind: string, stamp: string)
    requires KeysUnique(rs)
    ensures KeysUnique(Toggle(rs, userId, username, kind, stamp))
  {
    var i := IndexOfKey(rs, userId, kind);
    if i >= 0 {
      DropKeepsUnique(rs, i);
    } else {
      AppendKeepsUnique(rs, Reaction(userId, username, kind, stamp));
    }
  }

  /** Reacting twice with the same key, starting without it, gives back the original list. */
  lemma ToggleTwiceRestores(rs: seq<Reaction>, userId: ConnId, username: string, kind: string, stamp: string, stamp': string)
    requires !HasKey(rs, userId, kind)
    ensures Toggle(Toggle(rs, userId, username, kind, stamp), userId, username, kind, stamp') == rs
  {
    var t := Toggle(rs, userId, username, kind, stamp);
    assert t == rs + [Reaction(userId, username, kind, stamp)];
    assert SameKey(t[|rs|], userId, kind);
    var i := IndexOfKey(t, userId, kind);
    assert i == |rs|;
    assert t[..i] == rs;
  }

  /** The relay's in-place `findIndex` over a reaction array. */
  method FindReactionIndex(rs: seq<Reaction>, userId: ConnId, kind: string) returns (i: int)
    ensures i == IndexOfKey(rs, userId, kind)
  {
    i := 0;
    while i < |rs| && !SameKey(rs[i], userId, kind)
      invariant 0 <= i <= |rs|
      invariant forall j :: 0 <= j < i ==> !SameKey(rs[j], userId, kind)
    {
      i := i + 1;
    }
    if i == |rs| {
      i := -1;
    }
  }
}

=== FILE: relay.dfy ===
/**
 * The relay server's state and its socket handlers. Each handler runs to
 * completion before the next event is taken, so each is one method on the
 * `Relay` object; what it broadcasts is returned as a list of outbound events
 * with their audience. The clock, the message id and the random palette pick
 * are parameters; the one-hour removal timer is an entry in `timers` that the
 * environment fires later with `FireReclaim`.
 */
module Relay {
  import opened ChatTypes
  import opened Reactions
  import opened MessageStore

  /** Delay, in milliseconds, between a disconnect and the removal of the profile. */
  const RECLAIM_DELAY: int := 3600000

  /** The avatar colours handed out when a client sends none. */
  const PALETTE: seq<string> := ["#FF5733", "#33FF57", "#3357FF", "#FF33A8", "#33FFF5", "#F5FF33", "#FF8333", "#8333FF"]

  /** A pending removal check for connection `conn`, due at time `due`. */
  datatype Timer = Timer(conn: ConnId, due: Time)

  /** `avatarColor || generateRandomColor()`: the requested colour unless it is missing or empty, else palette entry `pick`. */
  function AvatarColor(requested: Option<string>, pick: nat): (color: string)
    requires pick < |PALETTE|
    ensures requested.Some? && requested.value != "" ==> color == requested.value
    ensures requested.None? || requested.value == "" ==> color in PALETTE
  {
    if requested.Some? && requested.value != "" then requested.value else PALETTE[pick]
  }

  class Relay {
    /** The user table, keyed by connection id. */
    var users: map<ConnId, User>
    /** The message log, oldest first. */
    var messages: seq<Message>
    /** Removal checks scheduled by disconnects and not yet fired. */
    var timers: seq<Timer>

    ghost predicate Valid()
      reads this
    {
      && |messages| <= MAX_MESSAGES
      && AllReceiptsUnique(messages)
      && (forall c :: c in users ==> users[c].id == c)
    }

    /** The stores start empty when the process starts. */
    constructor ()
      ensures Valid()
      ensures users == map[] && messages == [] && timers == []
    {
      users := map[];
      messages := [];
      timers := [];
    }

    /** A new connection is sent the whole message history, and nobody else is told. */
    method OnConnect() returns (out: seq<Outbound>)
      ensures out == [Outbound(SenderOnly, MessageHistory(messages))]
    {
      out := [Outbound(SenderOnly, MessageHistory(messages))];
    }

    /** `setUsername`: create or overwrite the sender's profile, online and not typing, and broadcast all profiles. */
    method OnSetUsername(conn: ConnId, username: string, requested: Option<string>, pick: nat, now: Time)
      returns (out: seq<Outbound>)
      requires Valid() && pick < |PALETTE|
      modifies this
      ensures Valid()
      ensures users == old(users)[conn := User(username, conn, true, false, now, AvatarColor(requested, pick))]
      ensures messages == old(messages) && timers == old(timers)
      ensures out == [Outbound(Everyone, UpdateUsers(users))]
    {
      var color := AvatarColor(requested, pick);
      users := users[conn := User(username, conn, true, false, now, color)];
      out := [Outbound(Everyone, UpdateUsers(users))];
    }

    /**
     * `message`: refuse a file that is too large (only the sender hears of it);
     * otherwise store the message with the given id, read by the sender alone,
     * clear the sender's typing flag, and broadcast the stored message.
     */
    method OnMessage(sender: ConnId, payload: Payload, id: MsgId) returns (out: seq<Outbound>)
      requires Valid()
      modifies this
      ensures Valid()
      ensures timers == old(timers)
      ensures FileTooLarge(payload.content) ==>
        && messages == old(messages)
        && users == old(users)
        && out == [Outbound(SenderOnly, ErrorEvent(FILE_TOO_LARGE))]
      ensures !FileTooLarge(payload.content) ==>
        var m := Enhance(payload, id, sender);
        && messages == Store(old(messages), m)
        && users == (if sender in old(users) then old(users)[sender := old(users)[sender].(isTyping := false)] else old(users))
        && out == (if sender in old(users) then [Outbound(Everyone, UserTyping(sender, false))] else [])
                  + [Outbound(Everyone, ReceiveMessage(m))]
      ensures AllReactionsUnique(old(messages)) && (payload.reactions.Some? ==> KeysUnique(payload.reactions.value))
        ==> AllReactionsUnique(messages)
    {
      var content := payload.content;
      if content.hasFile {
        if DecodedSize(content.fileData) > MAX_FILE_SIZE as real {
          out := [Outbound(SenderOnly, ErrorEvent(FILE_TOO_LARGE))];
          return;
        }
      }
      assert !FileTooLarge(content);
      var m := Message(id, content, [sender], if payload.reactions.Some? then payload.reactions.value else []);
      assert m == Enhance(payload, id, sender);
      Append(m);
      out := [];
      if sender in users {
        users := users[sender := users[sender].(isTyping := false)];
        out := out + [Outbound(Everyone, UserTyping(sender, false))];
      }
      out := out + [Outbound(Everyone, ReceiveMessage(m))];
    }

    /** `messages.push(m)`, then `messages.shift()` once the log holds more than the cap. */
    method Append(m: Message)
      requires Valid() && NoDuplicates(m.readBy)
      modifies this
      ensures Valid()
      ensures messages == Store(old(messages), m)
      ensures users == old(users) && timers == old(timers)
      ensures AllReactionsUnique(old(messages)) && KeysUnique(m.reactions) ==> AllReactionsUnique(messages)
    {
      if AllReactionsUnique(messages) && KeysUnique(m.reactions) {
        StoreKeepsUnique(messages, m);
      }
      StoreKeepsReceiptsUnique(messages, m);
      messages := messages + [m];
      if |messages| > MAX_MESSAGES {
        messages := messages[1..];
      }
    }

    /**
     * `reaction`: toggle the (userId, kind) reaction on the first message with
     * the id and broadcast its reactions; an unknown id changes nothing and
     * broadcasts nothing.
     */
    method OnReaction(messageId: MsgId, kind: string, userId: ConnId, username: string, stamp: string)
      returns (out: seq<Outbound>)
      requires Valid()
      modifies this
      ensures Valid()
      ensures messages == ReactLog(old(messages), messageId, userId, username, kind, stamp)
      ensures users == old(users) && timers == old(timers)
      ensures var k := FindMessage(old(messages), messageId);
        out == if k < 0 then [] else [Outbound(Everyone, MessageReactionUpdate(messageId, messages[k].reactions))]
      ensures AllReactionsUnique(old(messages)) ==> AllReactionsUnique(messages)
    {
      if AllReactionsUnique(messages) {
        ReactLogKeepsUnique(messages, messageId, userId, username, kind, stamp);
      }
      var k := FindMessageIndex(messages, messageId);
      if k < 0 {
        out := [];
        return;
      }
      var reactions := messages[k].reactions;
      var i := FindReactionIndex(reactions, userId, kind);
      if i >= 0 {
        reactions := reactions[..i] + reactions[i + 1..];
      } else {
        reactions := reactions + [Reaction(userId, username, kind, stamp)];
      }
      messages := messages[k := messages[k].(reactions := reactions)];
      out := [Outbound(Everyone, MessageReactionUpdate(messageId, reactions))];
    }

    /** `typing`: with a profile, record the flag and tell everyone but the sender; without one, nothing happens. */
    method OnTyping(conn: ConnId, isTyping: bool) returns (out: seq<Outbound>)
      requires Valid()
      modifies this
      ensures Valid()
      ensures messages == old(messages) && timers == old(timers)
      ensures conn !in old(users) ==> users == old(users) && out == []
      ensures conn in old(users) ==>
        && users == old(users)[conn := old(users)[conn].(isTyping := isTyping)]
        && out == [Outbound(AllButSender, UserTyping(conn, isTyping))]
    {
      out := [];
      if conn in users {
        users := users[conn := users[conn].(isTyping := isTyping)];
        out := [Outbound(AllButSender, UserTyping(conn, isTyping))];
      }
    }

    /**
     * `messageRead`: add the reader to the first message with the id unless it
     * is already there, and broadcast the receipts only when it was added.
     */
    method OnMessageRead(conn: ConnId, messageId: MsgId) returns (out: seq<Outbound>)
      requires Valid()
      modifies this
      ensures Valid()
      ensures messages == ReadLog(old(messages), messageId, conn)
      ensures users == old(users) && timers == old(timers)
      ensures var k := FindMessage(old(messages), messageId);
        out == if 0 <= k && conn !in old(messages)[k].readBy
               then [Outbound(Everyone, MessageReadUpdate(messageId, messages[k].readBy))]
               else []
      ensures AllReactionsUnique(old(messages)) ==> AllReactionsUnique(messages)
    {
      out := [];
      var k := FindMessageIndex(messages, messageId);
      if k >= 0 {
        var seen := Includes(messages[k].readBy, conn);
        if !seen {
          var readBy := messages[k].readBy + [conn];
          messages := messages[k := messages[k].(readBy := readBy)];
          out := [Outbound(Everyone, MessageReadUpdate(messageId, readBy))];
        }
      }
    }

    /** `userStatus`: with a profile, online exactly when the status is "online", stamp lastSeen, broadcast all profiles. */
    method OnUserStatus(conn: ConnId, status: string, now: Time) returns (out: seq<Outbound>)
      requires Valid()
      modifies this
      ensures Valid()
      ensures messages == old(messages) && timers == old(timers)
      ensures conn !in old(users) ==> users == old(users) && out == []
      ensures conn in old(users) ==>
        && users == old(users)[conn := old(users)[conn].(isOnline := status == "online", lastSeen := now)]
        && out == [Outbound(Everyone, UpdateUsers(users))]
    {
      out := [];
      if conn in users {
        users := users[conn := users[conn].(isOnline := status == "online", lastSeen := now)];
        out := [Outbound(Everyone, UpdateUsers(users))];
      }
    }

    /**
     * `disconnect`: with a profile, mark it offline, stamp lastSeen, broadcast
     * all profiles and schedule a removal check one hour later; without one,
     * nothing happens and nothing is scheduled.
     */
    method OnDisconnect(conn: ConnId, now: Time) returns (out: seq<Outbound>)
      requires Valid()
      modifies this
      ensures Valid()
      ensures messages == old(messages)
      ensures conn !in old(users) ==> users == old(users) && timers == old(timers) && out == []
      ensures conn in old(users) ==>
        && users == old(users)[conn := old(users)[conn].(isOnline := false, lastSeen := now)]
        && timers == old(timers) + [Timer(conn, now + RECLAIM_DELAY)]
        && out == [Outbound(Everyone, UpdateUsers(users))]
    {
      out := [];
      if conn in users {
        users := users[conn := users[conn].(isOnline := false, lastSeen := now)];
        out := [Outbound(Everyone, UpdateUsers(users))];
        timers := timers + [Timer(conn, now + RECLAIM_DELAY)];
      }
    }

    /**
     * The removal timer `k` fires at time `now`: it is consumed, and the
     * profile is deleted (and all profiles broadcast) only if it still exists
     * and is still offline, so a user who came back online keeps it.
     */
    method FireReclaim(k: nat, now: Time) returns (out: seq<Outbound>)
      requires Valid()
      requires k < |timers| && timers[k].due <= now
      modifies this
      ensures Valid()
      ensures messages == old(messages)
      ensures timers == old(timers[..k] + timers[k + 1..])
      ensures var c := old(timers[k].conn);
        if c in old(users) && !old(users)[c].isOnline
        then users == old(users) - {c} && out == [Outbound(Everyone, UpdateUsers(users))]
        else users == old(users) && out == []
    {
      var c := timers[k].conn;
      timers := timers[..k] + timers[k + 1..];
      out := [];
      if c in users && !users[c].isOnline {
        users := users - {c};
        out := [Outbound(Everyone, UpdateUsers(users))];
      }
    }
  }

  /**
   * The removal check looks at the profile as it is when the hour is up: a
   * profile that is online again by then survives. The trace sends
   * `setUsername` on a connection id after its disconnect; a socket.io socket
   * delivers nothing after it disconnects and a reconnecting client gets a new
   * id, so this exercises the check itself rather than a trace one socket
   * can produce.
   */
  method ReconnectSurvivesReclaim(conn: ConnId, name: string, t: Time) returns (profiles: map<ConnId, User>)
    ensures conn in profiles && profiles[conn].isOnline && profiles[conn].username == name
  {
    var relay := new Relay();
    var _ := relay.OnSetUsername(conn, name, None, 0, t);
    var _ := relay.OnDisconnect(conn, t + 1);
    var _ := relay.OnSetUsername(conn, name, None, 0, t + 2);
    var _ := relay.FireReclaim(0, t + 1 + RECLAIM_DELAY);
    profiles := relay.users;
  }

  /** A user who stays away for the hour is gone from the next profile broadcast. */
  method AbandonedProfileIsRemoved(conn: ConnId, name: string, t: Time) returns (broadcast: seq<Outbound>)
    ensures broadcast == [Outbound(Everyone, UpdateUsers(map[]))]
  {
    var relay := new Relay();
    var _ := relay.OnSetUsername(conn, name, None, 0, t);
    var _ := relay.OnDisconnect(conn, t + 1);
    broadcast := relay.FireReclaim(0, t + 1 + RECLAIM_DELAY);
  }

  /** A connection with no profile that reports typing changes nothing and is told nothing. */
  method AnonymousTypingIsSilent(conn: ConnId) returns (out: seq<Outbound>, changed: bool)
    ensures out == [] && !changed
  {
    var relay := new Relay();
    out := relay.OnTyping(conn, true);
    changed := relay.users != map[];
  }

  /**
   * A named user's first message reaches everyone, read by the sender alone,
   * with no reactions, after the sender's typing flag has been cleared.
   */
  method FirstMessageScenario(conn: ConnId, name: string, content: Content, id: MsgId, t: Time) returns (out: seq<Outbound>)
    requires !content.hasFile
    ensures out == [Outbound(Everyone, UserTyping(conn, false)),
                    Outbound(Everyone, ReceiveMessage(Message(id, content, [conn], [])))]
  {
    var relay := new Relay();
    var _ := relay.OnSetUsername(conn, name, None, 0, t);
    out := relay.OnMessage(conn, Payload(conn, content, None), id);
  }
}
